=== FILE: README.md ===
# Card recommendation engine of a Kanban board

The backend of this Trello-style board application has one endpoint that
does real work. `getRecommendations` reads a board and suggests actions on
its cards. A board is a sequence of lists; each list holds cards with a
title, a description and an optional due date. The engine runs four rule
families:

- **Due-date hints.** A card without a due date whose text mentions an
  urgent word is told to get a due date two days ahead (`high`). Otherwise,
  if it mentions a week phrase, it is told to get one within seven days
  (`medium`).
- **List movement and attention.** A card in a "to do" list whose text says
  work has started should move to In Progress. A card in an "in progress"
  list should move to Done if its text says it is finished. Independently,
  it needs attention if its text says it is blocked. All of these are
  `high`.
- **Overdue flags.** A card whose due date has passed, on a list whose title
  does not mention `done` or `complete`, is flagged with its whole days
  overdue (`critical`).
- **Related cards.** Every pair of cards on different lists with at least
  two common meaningful words (`low`). The common words are the first
  card's words that the second card also has, counted with the first card's
  repeats, so one word written twice in the first card and once in the
  second is enough.

The records are then sorted stably by priority: critical, high, medium,
low.

The model is split into seven modules:

- `Text` (text.dfy): the ASCII string primitives the engine uses —
  lower-casing, whitespace removal, substring test, `split(/\s+/)`, `join`
  and decimal rendering.
- `Kanban` (kanban.dfy): the board and the recommendation record.
- `CardRules` (card_rules.dfy): the per-card rules as functions.
- `RelatedCards` (related_cards.dfy): meaningful words, the flattened board
  and the pair table.
- `Ordering` (ordering.dfy): the reference stable sort `ByPriority`, and
  the in-place insertion sort `SortByPriority` proved equal to it.
- `Engine` (engine.dfy): the specification of what the engine emits, and
  the well-formedness lemmas.
- `Controller` (controller.dfy): the imperative driver. It has the nested
  card loops, the nested pair loops and the in-place sort, each proved to
  compute the specification functions of `Engine`, `RelatedCards` and
  `Ordering`.

The current time `now` (milliseconds) and the locale text of "today plus
two days" are parameters.

`words1.filter(w => words2.includes(w))` (line 162) keeps every duplicate
of the first card; the model follows the code (`CommonWordsCount`,
`CommonWordsKeepsRepeats`).

## Model

| member | source | states |
|---|---|---|
| Kanban.Rank | backend/src/controllers/recommendationController.js:183 | the sort key of each priority is one of 0..3 (critical 0, high 1, medium 2, low 3) |
| Text.Lower | backend/src/controllers/recommendationController.js:20 | `toLowerCase` keeps the length, turns each upper-case ASCII letter into its lower-case partner (code point plus 32), keeps every other character, and leaves no upper-case letter |
| Text.RemoveWhitespaceRemovesAll | backend/src/controllers/recommendationController.js:62 | the stripped list title holds no whitespace character |
| Text.RemoveWhitespaceAppend | backend/src/controllers/recommendationController.js:62 | stripping whitespace distributes over concatenation |
| Text.ContainsAt | backend/src/controllers/recommendationController.js:21 | `includes` holds exactly when the word occurs at some index of the text |
| Text.Split | backend/src/controllers/recommendationController.js:154 | `split(/\s+/)` always yields at least one piece |
| Text.SplitWord | backend/src/controllers/recommendationController.js:154 | a text without whitespace splits into itself alone |
| Text.SplitWordGap | backend/src/controllers/recommendationController.js:154 | a leading word (possibly empty), a maximal run of any whitespace characters and the rest split into that word followed by the pieces of the rest; with SplitWord this fixes the pieces of every text |
| Text.SplitPiecesAreWords | backend/src/controllers/recommendationController.js:154 | no piece of a split holds whitespace |
| Text.SplitLosesOnlyWhitespace | backend/src/controllers/recommendationController.js:154 | gluing the pieces back together gives the text minus its whitespace, so splitting loses nothing else |
| Text.JoinLength | backend/src/controllers/recommendationController.js:175 | the length of a `join` is the pieces' total length plus one separator between each two |
| Text.SplitJoin | backend/src/controllers/recommendationController.js:154 | `split(/\s+/)` undoes joining non-empty whitespace-free words with a space: the words come back, in order |
| Text.Decimal | backend/src/controllers/recommendationController.js:121 | the day count renders as decimal digits, at least one, no leading zero |
| Text.DecimalRoundTrip | backend/src/controllers/recommendationController.js:121 | reading the rendered day count back gives the number |
| CardRules.DueDateRule | backend/src/controllers/recommendationController.js:18-53 | a card with a due date gets nothing; otherwise a `dueDate` record about that card exists iff its text has an urgent word or a week phrase, and there is at most one: `high` iff the text has an urgent word, with the suggestion "Set due date to " and the given date and the reason "Contains urgent keywords"; `medium` iff it has no urgent word but has a week phrase, with "Set due date within 7 days" and "Contains time-related phrases" |
| CardRules.UrgentWins | backend/src/controllers/recommendationController.js:18-37 | with an urgent word the week-phrase branch is never taken: the result is exactly the urgent record |
| CardRules.TodoRule | backend/src/controllers/recommendationController.js:57-78 | a "Move to In Progress" `move` record (`high`, current list = list title) with the reason "Description indicates work has started" is emitted iff the list is a "to do" list and the text has a progress word |
| CardRules.TodoTitleSubsumed | backend/src/controllers/recommendationController.js:62-65 | the `=== 'To Do'` clause adds nothing: the to-do test is equivalent to its `todo`/`backlog` part |
| CardRules.InProgressRule | backend/src/controllers/recommendationController.js:80-106 | on an "in progress" list a "Move to Done" `move` record ("Description indicates completion") exists iff the text has a done word, and an `attention` record "Card may be blocked - needs attention" ("Contains blocking keywords") exists iff it has a blocked word, independently; the length is exactly the number of matching vocabularies (so at most one of each); the `move` record comes first and the `attention` record last; all are `high`, name the card and list, and only the `move` record carries the list title as current list |
| CardRules.InProgressTitleSubsumed | backend/src/controllers/recommendationController.js:81 | the `=== 'In Progress'` clause adds nothing: the test is equivalent to its `progress` part |
| CardRules.DoneAndBlocked | backend/src/controllers/recommendationController.js:81-106 | a card matching both vocabularies gets "Move to Done" then the attention record |
| CardRules.DaysOverdue | backend/src/controllers/recommendationController.js:114 | the day count is the floor of the elapsed milliseconds over 86400000, non-negative |
| CardRules.OverdueRule | backend/src/controllers/recommendationController.js:108-125 | an `overdue` record (`critical`) exists iff the due date is before `now` and the list title mentions neither `done` nor `complete`; its suggestion is "This card is overdue" and its reason carries the day count |
| CardRules.OverdueReasonSingular | backend/src/controllers/recommendationController.js:121 | the reason for 0 and for 1 day is "0 day past due date" and "1 day past due date" |
| CardRules.OverdueReasonPlural | backend/src/controllers/recommendationController.js:121 | the reason for 2 days is "2 days past due date" |
| CardRules.OverdueReasonTen | backend/src/controllers/recommendationController.js:121 | the reason for 10 days is "10 days past due date" |
| CardRules.CardRecommendations | backend/src/controllers/recommendationController.js:14-126 | every per-card record names its card (id and title) and its list, has no related card id, list id or title, is not of kind `related`, and carries the list title as current list exactly when it is a `move` record |
| CardRules.CardDueDateAndOverdue | backend/src/controllers/recommendationController.js:17-125 | a card's `dueDate` records are exactly Rule 1's and its `overdue` records exactly Rule 3's: none with a due date, at most one without, and no overdue record without a due date |
| RelatedCards.KeepMeaningfulMembers | backend/src/controllers/recommendationController.js:155-160 | a word survives both filters iff it is a token of length at least 4, not a stop word, made of `a`–`z` only |
| RelatedCards.KeepMeaningfulAppend | backend/src/controllers/recommendationController.js:155-160 | the two filters distribute over concatenation, so the kept words keep their order |
| RelatedCards.KeepMeaningfulCount | backend/src/controllers/recommendationController.js:155-160 | a meaningful word is kept as often as it occurs, any other word never |
| RelatedCards.MeaningfulWordsMembers | backend/src/controllers/recommendationController.js:154-160 | the meaningful words of a text are exactly its whitespace tokens passing those filters, none holding whitespace |
| RelatedCards.CommonWordsCount | backend/src/controllers/recommendationController.js:162 | each word of the first card occurs in the common words as often as in the first card when the second card has it, and not at all otherwise |
| RelatedCards.CommonWordsAppend | backend/src/controllers/recommendationController.js:162 | the common words distribute over concatenation of the first card's words, so they keep that card's order |
| RelatedCards.CommonWordsKeepsRepeats | backend/src/controllers/recommendationController.js:154-162 | the meaningful words of the text "database database" against those of "database" give two common words |
| RelatedCards.FirstThree | backend/src/controllers/recommendationController.js:175 | `slice(0, 3)` is a prefix of at most three words, all of them when there are fewer |
| RelatedCards.Flatten | backend/src/controllers/recommendationController.js:130-136 | the flattened board has one entry per card |
| RelatedCards.FlattenAt | backend/src/controllers/recommendationController.js:130-136 | card ci of list li sits at position (cards of the lists before li) + ci of the flattened board, tagged with its list's id and title |
| RelatedCards.FlattenOrigin | backend/src/controllers/recommendationController.js:130-136 | every flattened entry is a card of the board tagged with the id and title of its own list |
| RelatedCards.PairRecommendation | backend/src/controllers/recommendationController.js:144-178 | a pair yields at most one record, and one iff the lists differ and at least two common words exist; it is `related`, `low`, names the earlier card (id, title) and its list first and the later card (id, title) and its list as related, has no current list, suggests "These cards may be related", with the first three common words as reason |
| RelatedCards.RowsMembers | backend/src/controllers/recommendationController.js:142-143 | the two index loops visit exactly the pairs i < j |
| RelatedCards.RelatedSource | backend/src/controllers/recommendationController.js:142-178 | every `related` record comes from a pair i < j of cards on different lists, earlier card first |
| RelatedCards.PairIncluded | backend/src/controllers/recommendationController.js:142-178 | every pair's record is among the related records |
| RelatedCards.RelatedKind | backend/src/controllers/recommendationController.js:166-177 | the related pass emits only `related` records |
| Ordering.ByPriority | backend/src/controllers/recommendationController.js:183-184 | the reference sort is in non-decreasing rank order |
| Ordering.ByPriorityPermutes | backend/src/controllers/recommendationController.js:184 | the reference sort is a permutation of its input |
| Ordering.ByPriorityStable | backend/src/controllers/recommendationController.js:184 | the reference sort keeps the emission order within each priority |
| Ordering.SortedUnique | backend/src/controllers/recommendationController.js:184 | any rank-ordered sequence with the same per-priority order is the reference sort, so every stable sort gives the same result |
| Ordering.InsertAt | backend/src/controllers/recommendationController.js:184 | one insertion step extends the rank-ordered prefix by one, keeps every priority group in order and leaves the records past position i untouched |
| Ordering.SortByPriority | backend/src/controllers/recommendationController.js:184 | the in-place sort leaves exactly the reference sort of the old array contents |
| Engine.EmittedOrder | backend/src/controllers/recommendationController.js:14-180 | before sorting, the per-card records come first and the related records after them: a record is `related` exactly when its position is past the per-card records |
| Engine.RecommendationsReferToBoard | backend/src/controllers/recommendationController.js:14-180 | every returned record names a card present on the board in the list it names; a related record's second card is on the board in its named list, which differs from the first |
| Engine.EmptyBoardNoRecommendations | backend/src/controllers/recommendationController.js:11-16 | a board without cards yields an empty result |
| Controller.CollectListRecommendations | backend/src/controllers/recommendationController.js:15-126 | the card loop pushes the per-card records of each card of the list, in list order |
| Controller.CollectCardRecommendations | backend/src/controllers/recommendationController.js:14-127 | the list loop pushes them for every list, in board order |
| Controller.ComparePair | backend/src/controllers/recommendationController.js:144-178 | the pair body pushes exactly the pair's record, if any |
| Controller.CollectRow | backend/src/controllers/recommendationController.js:143-179 | the inner index loop pushes the records of the pairs (i, j) for j from i + 1 on, in order |
| Controller.CollectRelated | backend/src/controllers/recommendationController.js:142-180 | the outer index loop pushes the records of all pairs, row by row |
| Controller.GetRecommendations | backend/src/controllers/recommendationController.js:11-184 | the result is the stable sort by rank of everything emitted (per-card records, then related records): rank-ordered, the same records, and the same order within each priority |

## Left out

- Persistence and HTTP: `Board.findById`, the 404 branch, `res.json` and
  the 500 handler (lines 5-9, 186-190). The board is an input value, and
  being a value it is only read.
- ObjectId `toString`, `equals` and `toObject` (lines 30-31, 132, 148):
  ids are strings compared by plain equality.
- The clock: the source reads `new Date()` at lines 25, 109 and 114. The
  model takes one instant `now` in milliseconds for all of them, and a
  due date is already a millisecond count (no date parsing).
- The suggested date: `setDate(getDate() + 2)` rendered by
  `toLocaleDateString()` (lines 25-33) depends on time zone and locale. It
  is the parameter `suggestedDate`, the same text for every card.
- Unicode: `toLowerCase` and the `\s` class are modelled on ASCII only (six
  whitespace characters, letters `A`–`Z`).
- A missing or null description is the empty string, the schema default
  (backend/src/models/Board.js:8-11), which is what `|| ''` yields.
- The shape of the records: fields absent from a record in the source are
  `None` in the model.
- The JavaScript engine's sorting algorithm is not modelled: any stable sort
  gives the same result (`SortedUnique`), so an insertion sort stands in
  for it.
- Kanban.Rank: its contract states only the range 0..3; the exact value of
  each priority is its body.
- boardController.js, the routes, the frontend client and UI, and the rest
  of the schema are not part of this model. They are database plumbing,
  Express routing and React rendering.

=== FILE: card_rules.dfy ===
/** The three per-card rule families of the recommendation engine: due-date
    hints, list-movement and attention hints, and overdue flags. */
module CardRules {
  import opened Text
  import opened Kanban

  const UrgentWords: seq<string> :=
    ["urgent", "asap", "immediately", "critical", "deadline", "priority", "important"]
  const WeekWords: seq<string> :=
    ["this week", "next week", "by friday", "by monday", "by weekend"]
  const ProgressWords: seq<string> :=
    ["started", "working on", "in progress", "doing", "began", "beginning", "currently"]
  const DoneWords: seq<string> :=
    ["completed", "finished", "done", "resolved", "closed", "fixed", "implemented"]
  const BlockedWords: seq<string> :=
    ["blocked", "stuck", "waiting", "pending", "issue", "problem", "need help"]

  /** Milliseconds in a day, `1000 * 60 * 60 * 24`. */
  const MsPerDay: nat := 86400000

  /** The lower-cased text the keyword tests look at: title, a space, description. */
  function CardText(c: Card): string {
    Lower(c.title + " " + c.description)
  }

  /** A list title lower-cased with all whitespace removed. */
  function ListKey(title: string): string {
    RemoveWhitespace(Lower(title))
  }

  /** A "to do" list: its key mentions `todo` or `backlog`, or the title is exactly "To Do". */
  predicate IsTodoList(title: string) {
    Contains(ListKey(title), "todo") || Contains(ListKey(title), "backlog") || title == "To Do"
  }

  /** An "in progress" list: its key mentions `progress`, or the title is exactly "In Progress". */
  predicate IsInProgressList(title: string) {
    Contains(ListKey(title), "progress") || title == "In Progress"
  }

  /** A finished list: its lower-cased title (whitespace kept) mentions `done` or `complete`. */
  predicate IsDoneList(title: string) {
    Contains(Lower(title), "done") || Contains(Lower(title), "complete")
  }

  /** A record about card `c` of list `l`, with no `related…` fields. */
  function CardRecord(kind: Kind, l: CardList, c: Card, currentList: Option<string>,
                      suggestion: string, reason: string, priority: Priority): Recommendation
  {
    Recommendation(kind, c.id, l.id, c.title, currentList, None, None, None,
                   suggestion, reason, priority)
  }

  /** Every record in `rs` is a per-card record about card `c` of list `l`:
      it names that card and list, no related card, and carries the list
      title as current list exactly when it is a `move` record. */
  predicate AboutCard(rs: seq<Recommendation>, l: CardList, c: Card) {
    forall k :: 0 <= k < |rs| ==>
      rs[k].cardId == c.id && rs[k].listId == l.id && rs[k].cardTitle == c.title
      && rs[k].relatedCardId.None? && rs[k].relatedListId.None?
      && rs[k].relatedCardTitle.None? && rs[k].kind != Related
      && rs[k].currentList == (if rs[k].kind == Move then Some(l.title) else None)
  }

  lemma AboutCardAppend(a: seq<Recommendation>, b: seq<Recommendation>, l: CardList, c: Card)
    requires AboutCard(a, l, c) && AboutCard(b, l, c)
    ensures AboutCard(a + b, l, c)
  {
  }

  /** Rule 1, the due-date hint. `suggestedDate` is the locale rendering of
      today plus two days, which the caller supplies. */
  function DueDateRule(l: CardList, c: Card, suggestedDate: string): (r: seq<Recommendation>)
    ensures |r| <= 1
    ensures AboutCard(r, l, c)
    ensures forall k :: 0 <= k < |r| ==> r[k].kind == DueDate
    ensures c.dueDate.Some? ==> r == []
    ensures |r| == 1 <==> c.dueDate.None? && (ContainsAny(CardText(c), UrgentWords) || ContainsAny(CardText(c), WeekWords))
    ensures (|r| == 1 && r[0].priority == High)
      <==> c.dueDate.None? && ContainsAny(CardText(c), UrgentWords)
    ensures (|r| == 1 && r[0].priority == Medium)
      <==> c.dueDate.None? && !ContainsAny(CardText(c), UrgentWords)
           && ContainsAny(CardText(c), WeekWords)
    ensures |r| == 1 && r[0].priority == High ==>
      r[0].suggestion == "Set due date to " + suggestedDate && r[0].reason == "Contains urgent keywords"
    ensures |r| == 1 && r[0].priority == Medium ==>
      r[0].suggestion == "Set due date within 7 days" && r[0].reason == "Contains time-related phrases"
  {
    if c.dueDate.Some? then []
    else if ContainsAny(CardText(c), UrgentWords) then
      [CardRecord(DueDate, l, c, None, "Set due date to " + suggestedDate,
                  "Contains urgent keywords", High)]
    else if ContainsAny(CardText(c), WeekWords) then
      [CardRecord(DueDate, l, c, None, "Set due date within 7 days",
                  "Contains time-related phrases", Medium)]
    else []
  }

  /** Rule 2, first half: a card in a "to do" list whose text says work has started. */
  function TodoRule(l: CardList, c: Card): (r: seq<Recommendation>)
    ensures |r| <= 1
    ensures AboutCard(r, l, c)
    ensures |r| == 1 <==> IsTodoList(l.title) && ContainsAny(CardText(c), ProgressWords)
    ensures forall k :: 0 <= k < |r| ==>
      r[k].kind == Move && r[k].priority == High && r[k].currentList == Some(l.title)
      && r[k].suggestion == "Move to In Progress"
      && r[k].reason == "Description indicates work has started"
  {
    if IsTodoList(l.title) && ContainsAny(CardText(c), ProgressWords) then
      [CardRecord(Move, l, c, Some(l.title), "Move to In Progress",
                  "Description indicates work has started", High)]
    else []
  }

  /** Rule 2, second half: a card in an "in progress" list whose text says it
      is done, and independently one whose text says it is blocked. */
  function InProgressRule(l: CardList, c: Card): (r: seq<Recommendation>)
    ensures |r| == (if IsInProgressList(l.title) && ContainsAny(CardText(c), DoneWords) then 1 else 0)
                 + (if IsInProgressList(l.title) && ContainsAny(CardText(c), BlockedWords) then 1 else 0)
    ensures AboutCard(r, l, c)
    ensures forall k :: 0 <= k < |r| ==> r[k].priority == High
    ensures (exists k :: 0 <= k < |r| && r[k].kind == Move)
      <==> IsInProgressList(l.title) && ContainsAny(CardText(c), DoneWords)
    ensures (exists k :: 0 <= k < |r| && r[k].kind == Attention)
      <==> IsInProgressList(l.title) && ContainsAny(CardText(c), BlockedWords)
    ensures forall k :: 0 <= k < |r| && r[k].kind == Move ==>
      k == 0 && r[k].suggestion == "Move to Done" && r[k].reason == "Description indicates completion"
    ensures forall k :: 0 <= k < |r| && r[k].kind == Attention ==>
      k == |r| - 1 && r[k].suggestion == "Card may be blocked - needs attention"
      && r[k].reason == "Contains blocking keywords"
    ensures forall k :: 0 <= k < |r| ==> r[k].kind in {Move, Attention}
  {
    var finished := ContainsAny(CardText(c), DoneWords);
    var blocked := ContainsAny(CardText(c), BlockedWords);
    var moveToDone := CardRecord(Move, l, c, Some(l.title), "Move to Done",
                                 "Description indicates completion", High);
    var attention := CardRecord(Attention, l, c, None, "Card may be blocked - needs attention",
                                "Contains blocking keywords", High);
    if !IsInProgressList(l.title) then []
    else if finished && blocked then
      assert [moveToDone, attention][0] == moveToDone && [moveToDone, attention][1] == attention;
      [moveToDone, attention]
    else if finished then assert [moveToDone][0] == moveToDone; [moveToDone]
    else if blocked then assert [attention][0] == attention; [attention]
    else []
  }

  /** Whole days elapsed from `dueDate` to `now`, rounded down. */
  function DaysOverdue(dueDate: int, now: int): (days: nat)
    requires dueDate < now
    ensures days * MsPerDay <= now - dueDate < (days + 1) * MsPerDay
  {
    (now - dueDate) / MsPerDay
  }

  /** "<n> day past due date", with "days" only when n is more than one. */
  function OverdueReason(days: nat): string {
    Decimal(days) + (if days > 1 then " days" else " day") + " past due date"
  }

  /** Rule 3, the overdue flag, against the current time `now`. */
  function OverdueRule(l: CardList, c: Card, now: int): (r: seq<Recommendation>)
    ensures |r| <= 1
    ensures AboutCard(r, l, c)
    ensures |r| == 1 <==> c.dueDate.Some? && c.dueDate.value < now && !IsDoneList(l.title)
    ensures forall k :: 0 <= k < |r| ==>
      r[k].kind == Overdue && r[k].priority == Critical && c.dueDate.Some? && c.dueDate.value < now
      && r[k].suggestion == "This card is overdue"
      && r[k].reason == OverdueReason(DaysOverdue(c.dueDate.value, now))
  {
    if c.dueDate.Some? && c.dueDate.value < now && !IsDoneList(l.title) then
      [CardRecord(Overdue, l, c, None, "This card is overdue",
                  OverdueReason(DaysOverdue(c.dueDate.value, now)), Critical)]
    else []
  }

  /** All records for one card, in the order the rules are evaluated. */
  function CardRecommendations(l: CardList, c: Card, now: int, suggestedDate: string)
    : (r: seq<Recommendation>)
    ensures AboutCard(r, l, c)
  {
    var d, t, p, o := DueDateRule(l, c, suggestedDate), TodoRule(l, c), InProgressRule(l, c),
                      OverdueRule(l, c, now);
    AboutCardAppend(d, t, l, c);
    AboutCardAppend(d + t, p, l, c);
    AboutCardAppend(d + t + p, o, l, c);
    d + t + p + o
  }

  /** The records of one kind, in order. */
  function OfKind(rs: seq<Recommendation>, kind: Kind): (r: seq<Recommendation>)
    ensures |r| <= |rs|
  {
    if |rs| == 0 then []
    else if rs[0].kind == kind then [rs[0]] + OfKind(rs[1..], kind)
    else OfKind(rs[1..], kind)
  }

  lemma {:induction false} OfKindAppend(a: seq<Recommendation>, b: seq<Recommendation>, kind: Kind)
    ensures OfKind(a + b, kind) == OfKind(a, kind) + OfKind(b, kind)
  {
    if |a| == 0 {
      assert a + b == b;
    } else {
      assert (a + b)[0] == a[0];
      assert (a + b)[1..] == a[1..] + b;
      OfKindAppend(a[1..], b, kind);
    }
  }

  lemma {:induction false} OfKindAll(rs: seq<Recommendation>, kind: Kind)
    requires forall k :: 0 <= k < |rs| ==> rs[k].kind == kind
    ensures OfKind(rs, kind) == rs
  {
    if rs != [] {
      OfKindAll(rs[1..], kind);
    }
  }

  lemma {:induction false} OfKindNone(rs: seq<Recommendation>, kind: Kind)
    requires forall k :: 0 <= k < |rs| ==> rs[k].kind != kind
    ensures OfKind(rs, kind) == []
  {
    if rs != [] {
      OfKindNone(rs[1..], kind);
    }
  }

  /** Each card gets its `dueDate` records from Rule 1 alone and its
      `overdue` records from Rule 3 alone: so a card with a due date never
      gets a `dueDate` record, one without gets at most one, and only a card
      with a past due date gets an `overdue` record. */
  lemma CardDueDateAndOverdue(l: CardList, c: Card, now: int, suggestedDate: string)
    ensures OfKind(CardRecommendations(l, c, now, suggestedDate), DueDate)
            == DueDateRule(l, c, suggestedDate)
    ensures OfKind(CardRecommendations(l, c, now, suggestedDate), Overdue)
            == OverdueRule(l, c, now)
    ensures c.dueDate.Some? ==> OfKind(CardRecommendations(l, c, now, suggestedDate), DueDate) == []
    ensures |OfKind(CardRecommendations(l, c, now, suggestedDate), DueDate)| <= 1
    ensures c.dueDate.None? ==> OfKind(CardRecommendations(l, c, now, suggestedDate), Overdue) == []
  {
    var d, t, p, o := DueDateRule(l, c, suggestedDate), TodoRule(l, c), InProgressRule(l, c),
                      OverdueRule(l, c, now);
    OfKindAppend(d + t + p, o, DueDate);
    OfKindAppend(d + t, p, DueDate);
    OfKindAppend(d, t, DueDate);
    OfKindAll(d, DueDate);
    OfKindNone(t, DueDate);
    OfKindNone(p, DueDate);
    OfKindNone(o, DueDate);
    OfKindAppend(d + t + p, o, Overdue);
    OfKindAppend(d + t, p, Overdue);
    OfKindAppend(d, t, Overdue);
    OfKindNone(d, Overdue);
    OfKindNone(t, Overdue);
    OfKindNone(p, Overdue);
    OfKindAll(o, Overdue);
  }

  /** Rule 1's urgent branch wins over the week-phrase branch. */
  lemma UrgentWins(l: CardList, c: Card, suggestedDate: string)
    requires c.dueDate.None?
    requires ContainsAny(CardText(c), UrgentWords)
    ensures DueDateRule(l, c, suggestedDate) ==
      [CardRecord(DueDate, l, c, None, "Set due date to " + suggestedDate,
                  "Contains urgent keywords", High)]
  {
  }

  /** "To Do" lower-cased. */
  lemma LowerToDo()
    ensures Lower("To Do") == "to" + " " + "do"
  {
    forall k | 0 <= k < 5 ensures Lower("To Do")[k] == ("to" + " " + "do")[k] { }
  }

  /** The exact-title clause "To Do" of the to-do test is subsumed by the
      `todo` clause: lower-cased and stripped, "To Do" is "todo". */
  lemma TodoTitleSubsumed(title: string)
    ensures IsTodoList(title) <==> Contains(ListKey(title), "todo") || Contains(ListKey(title), "backlog")
  {
    if title == "To Do" {
      LowerToDo();
      JoinAroundSpace("to", "do");
      assert ListKey(title) == "todo";
      assert "todo"[..4] == "todo";
    }
  }

  /** Removing whitespace from two words around one space joins them. */
  lemma JoinAroundSpace(a: string, b: string)
    requires NoWhitespace(a) && NoWhitespace(b)
    ensures RemoveWhitespace(a + " " + b) == a + b
  {
    var gap := " ";
    assert AllWhitespace(gap);
    RemoveWhitespaceOfGap(gap);
    RemoveWhitespaceOfWord(a);
    RemoveWhitespaceOfWord(b);
    RemoveWhitespaceAppend(a, gap);
    assert RemoveWhitespace(a + gap) == a;
    RemoveWhitespaceAppend(a + gap, b);
  }

  /** "In Progress" lower-cased. */
  lemma LowerInProgress()
    ensures Lower("In Progress") == "in" + " " + "progress"
  {
    forall k | 0 <= k < 11 ensures Lower("In Progress")[k] == ("in" + " " + "progress")[k] { }
  }

  lemma InProgressKey()
    ensures ListKey("In Progress") == "in" + "progress"
  {
    LowerInProgress();
    JoinAroundSpace("in", "progress");
  }

  /** Likewise "In Progress" is subsumed by the `progress` clause. */
  lemma InProgressTitleSubsumed(title: string)
    ensures IsInProgressList(title) <==> Contains(ListKey(title), "progress")
  {
    if title == "In Progress" {
      InProgressKey();
      ContainsSuffix("in", "progress");
    }
  }

  /** A card in an "in progress" list whose text matches both the done and
      the blocked vocabulary gets a "Move to Done" record followed by an
      attention record. */
  lemma DoneAndBlocked(l: CardList, c: Card)
    requires IsInProgressList(l.title)
    requires ContainsAny(CardText(c), DoneWords) && ContainsAny(CardText(c), BlockedWords)
    ensures var r := InProgressRule(l, c);
      |r| == 2 && r[0].kind == Move && r[0].suggestion == "Move to Done"
      && r[1].kind == Attention && r[1].suggestion == "Card may be blocked - needs attention"
  {
  }

  /** The overdue reason says "day" for zero and one day. */
  lemma OverdueReasonSingular()
    ensures OverdueReason(0) == "0 day past due date"
    ensures OverdueReason(1) == "1 day past due date"
  {
  }

  /** The overdue reason says "days" from two days on. */
  lemma OverdueReasonPlural()
    ensures OverdueReason(2) == "2 days past due date"
  {
    assert Decimal(2) == "2";
  }

  /** A multi-digit day count is rendered in full. */
  lemma OverdueReasonTen()
    ensures OverdueReason(10) == "10 days past due date"
  {
    DecimalTen();
    assert OverdueReason(10) == "10" + " days" + " past due date";
  }

  lemma DecimalTen()
    ensures Decimal(10) == "10"
  {
  }
}

=== FILE: controller.dfy ===
/** The controller's imperative passes: the two loops that push records
    into the result array and the final in-place sort. Each is proved to
    compute the specification functions of module Engine. */
module Controller {
  import opened Kanban
  import opened CardRules
  import opened RelatedCards
  import opened Ordering
  import opened Engine

  /** The first pass over one list: the per-card rules for each of its
      cards, in list order. */
  method CollectListRecommendations(list: CardList, now: int, suggestedDate: string)
    returns (emitted: seq<Recommendation>)
    ensures emitted == ListRecommendations(CardRule(now, suggestedDate), list, |list.cards|)
  {
    emitted := [];
    for ci := 0 to |list.cards|
      invariant emitted == ListRecommendations(CardRule(now, suggestedDate), list, ci)
    {
      ListRecommendationsStep(CardRule(now, suggestedDate), list, ci);
      emitted := emitted + CardRecommendations(list, list.cards[ci], now, suggestedDate);
    }
  }

  /** The first pass: the per-card rules for every card, lists in board
      order and cards in list order. */
  method CollectCardRecommendations(lists: seq<CardList>, now: int, suggestedDate: string)
    returns (emitted: seq<Recommendation>)
    ensures emitted == BoardRecommendations(CardRule(now, suggestedDate), lists, |lists|)
  {
    emitted := [];
    for li := 0 to |lists|
      invariant emitted == BoardRecommendations(CardRule(now, suggestedDate), lists, li)
    {
      var recs := CollectListRecommendations(lists[li], now, suggestedDate);
      BoardRecommendationsStep(CardRule(now, suggestedDate), lists, li);
      emitted := emitted + recs;
    }
  }

  /** The body of the pair loop for positions i < j: skip cards on the same
      list, otherwise report the pair when it shares two meaningful words. */
  method ComparePair(all: seq<FlatCard>, i: int, j: int) returns (found: seq<Recommendation>)
    requires 0 <= i < j < |all|
    ensures found == PairTable(all)(i, j)
  {
    found := [];
    if all[i].listId != all[j].listId {
      var text1 := CardText(all[i].card);
      var text2 := CardText(all[j].card);
      var words1 := MeaningfulWords(text1);
      var words2 := MeaningfulWords(text2);
      var common := CommonWords(words1, words2);
      if |common| >= 2 {
        found := [RelatedRecord(all[i], all[j], common)];
      }
    }
  }

  /** One row of the pair loop: card i against every later card. */
  method CollectRow(all: seq<FlatCard>, i: int) returns (emitted: seq<Recommendation>)
    requires 0 <= i < |all|
    ensures emitted == Row(PairTable(all), i, |all|)
  {
    emitted := [];
    for j := i + 1 to |all|
      invariant emitted == Row(PairTable(all), i, j)
    {
      var found := ComparePair(all, i, j);
      RowStep(PairTable(all), i, j);
      emitted := emitted + found;
    }
  }

  /** The second pass: every pair i < j of the flattened board, row by row. */
  method CollectRelated(all: seq<FlatCard>) returns (emitted: seq<Recommendation>)
    ensures emitted == RelatedRecommendations(all)
  {
    var n := |all|;
    emitted := [];
    for i := 0 to n
      invariant emitted == Rows(PairTable(all), n, i)
    {
      var row := CollectRow(all, i);
      RowsStep(PairTable(all), n, i);
      emitted := emitted + row;
    }
  }

  /** The engine, with the current time `now` (milliseconds) and the locale
      rendering of today plus two days passed in. */
  method GetRecommendations(b: Board, now: int, suggestedDate: string)
    returns (recs: seq<Recommendation>)
    ensures recs == ByPriority(Emitted(b, now, suggestedDate))
    ensures Sorted(recs)
    ensures SameGroups(recs, Emitted(b, now, suggestedDate))
    ensures multiset(recs) == multiset(Emitted(b, now, suggestedDate))
  {
    var perCard := CollectCardRecommendations(b.lists, now, suggestedDate);
    var all := Flatten(b.lists);
    var related := CollectRelated(all);
    var emitted := perCard + related;
    var a := new Recommendation[|emitted|](k requires 0 <= k < |emitted| => emitted[k]);
    assert a[..] == emitted;
    SortByPriority(a);
    recs := a[..];
    ByPriorityStable(emitted);
    ByPriorityPermutes(emitted);
  }
}

=== FILE: engine.dfy ===
/** The recommendation engine: every card through the per-card rules, every
    pair of cards on different lists through the related-card rule, then a
    stable sort by priority. The board is a value, so it is only read. */
module Engine {
  import opened Kanban
  import opened CardRules
  import opened RelatedCards
  import opened Ordering

  /** The per-card rules with the current time and the suggested date fixed. */
  function CardRule(now: int, suggestedDate: string): (CardList, Card) -> seq<Recommendation> {
    (l: CardList, c: Card) => CardRecommendations(l, c, now, suggestedDate)
  }

  /** The records `rule` gives the first n cards of list l, card by card. */
  function ListRecommendations(rule: (CardList, Card) -> seq<Recommendation>, l: CardList, n: int)
    : seq<Recommendation>
    requires 0 <= n <= |l.cards|
  {
    if n == 0 then [] else ListRecommendations(rule, l, n - 1) + rule(l, l.cards[n - 1])
  }

  /** The records `rule` gives the cards of the first m lists, list by list. */
  function BoardRecommendations(rule: (CardList, Card) -> seq<Recommendation>,
                                lists: seq<CardList>, m: int): seq<Recommendation>
    requires 0 <= m <= |lists|
  {
    if m == 0 then []
    else BoardRecommendations(rule, lists, m - 1)
         + ListRecommendations(rule, lists[m - 1], |lists[m - 1].cards|)
  }

  /** One more card appends that card's records. */
  lemma ListRecommendationsStep(rule: (CardList, Card) -> seq<Recommendation>, l: CardList, n: int)
    requires 0 <= n < |l.cards|
    ensures ListRecommendations(rule, l, n + 1) == ListRecommendations(rule, l, n) + rule(l, l.cards[n])
  {
  }

  /** One more list appends the records of all its cards. */
  lemma BoardRecommendationsStep(rule: (CardList, Card) -> seq<Recommendation>,
                                 lists: seq<CardList>, m: int)
    requires 0 <= m < |lists|
    ensures BoardRecommendations(rule, lists, m + 1)
         == BoardRecommendations(rule, lists, m) + ListRecommendations(rule, lists[m], |lists[m].cards|)
  {
  }

  /** Everything the engine pushes before sorting, in push order: the
      per-card records of every card, then the related records of every pair. */
  function Emitted(b: Board, now: int, suggestedDate: string): seq<Recommendation> {
    BoardRecommendations(CardRule(now, suggestedDate), b.lists, |b.lists|)
    + RelatedRecommendations(Flatten(b.lists))
  }

  /** A record of a list's pass comes from one of its cards. */
  lemma {:induction false} ListRecommendationsMembers(rule: (CardList, Card) -> seq<Recommendation>,
                                                      l: CardList, n: int, r: Recommendation)
    requires 0 <= n <= |l.cards|
    requires r in ListRecommendations(rule, l, n)
    ensures exists ci :: 0 <= ci < n && r in rule(l, l.cards[ci])
  {
    if r in rule(l, l.cards[n - 1]) {
      assert 0 <= n - 1 < n;
    } else {
      ListRecommendationsMembers(rule, l, n - 1, r);
    }
  }

  /** A record of the per-card pass comes from one card of one list. */
  lemma {:induction false} BoardRecommendationsMembers(rule: (CardList, Card) -> seq<Recommendation>,
                                                       lists: seq<CardList>, m: int, r: Recommendation)
    requires 0 <= m <= |lists|
    requires r in BoardRecommendations(rule, lists, m)
    ensures exists li, ci :: 0 <= li < m && 0 <= ci < |lists[li].cards| && r in rule(lists[li], lists[li].cards[ci])
  {
    var l := lists[m - 1];
    if r in ListRecommendations(rule, l, |l.cards|) {
      ListRecommendationsMembers(rule, l, |l.cards|, r);
      var ci :| 0 <= ci < |l.cards| && r in rule(l, l.cards[ci]);
      assert 0 <= m - 1 < m && r in rule(lists[m - 1], lists[m - 1].cards[ci]);
    } else {
      BoardRecommendationsMembers(rule, lists, m - 1, r);
    }
  }

  /** A per-card record names a card of the board and the list holding it. */
  lemma PerCardRefersToBoard(b: Board, now: int, suggestedDate: string, r: Recommendation)
    requires r in BoardRecommendations(CardRule(now, suggestedDate), b.lists, |b.lists|)
    ensures HasCardInList(b, r.listId, r.cardId) && r.kind != Related
  {
    var rule := CardRule(now, suggestedDate);
    BoardRecommendationsMembers(rule, b.lists, |b.lists|, r);
    var li, ci :| 0 <= li < |b.lists| && 0 <= ci < |b.lists[li].cards|
      && r in rule(b.lists[li], b.lists[li].cards[ci]);
    var recs := CardRecommendations(b.lists[li], b.lists[li].cards[ci], now, suggestedDate);
    assert r in recs;
    assert b.lists[li].id == r.listId && b.lists[li].cards[ci].id == r.cardId;
  }

  /** A related record names two cards of the board, each with the list
      holding it, and the two lists differ. */
  lemma RelatedRefersToBoard(b: Board, r: Recommendation)
    requires r in RelatedRecommendations(Flatten(b.lists))
    ensures HasCardInList(b, r.listId, r.cardId)
    ensures r.relatedListId.Some? && r.relatedCardId.Some? && r.relatedListId.value != r.listId
    ensures HasCardInList(b, r.relatedListId.value, r.relatedCardId.value)
  {
    var all := Flatten(b.lists);
    RelatedSource(all, r);
    var i, j :| RelatesPair(all, r, i, j);
    FlattenOrigin(b.lists, i);
    var li, ci :| IsCardOf(b.lists, all[i], li, ci);
    assert b.lists[li].id == r.listId && b.lists[li].cards[ci].id == r.cardId;
    FlattenOrigin(b.lists, j);
    var lj, cj :| IsCardOf(b.lists, all[j], lj, cj);
    assert b.lists[lj].id == r.relatedListId.value && b.lists[lj].cards[cj].id == r.relatedCardId.value;
  }

  /** Every record the engine returns names a card that is on the board, in
      the list the record names; a `related` record's second card is on the
      board in its named list too, and that list differs from the first. */
  lemma RecommendationsReferToBoard(b: Board, now: int, suggestedDate: string, r: Recommendation)
    requires r in ByPriority(Emitted(b, now, suggestedDate))
    ensures HasCardInList(b, r.listId, r.cardId)
    ensures r.kind == Related ==>
      r.relatedListId.Some? && r.relatedCardId.Some? && r.relatedListId.value != r.listId
      && HasCardInList(b, r.relatedListId.value, r.relatedCardId.value)
  {
    var emitted := Emitted(b, now, suggestedDate);
    ByPriorityPermutes(emitted);
    assert r in multiset(emitted);
    if r in BoardRecommendations(CardRule(now, suggestedDate), b.lists, |b.lists|) {
      PerCardRefersToBoard(b, now, suggestedDate, r);
    } else {
      RelatedRefersToBoard(b, r);
    }
  }

  /** The engine emits in two phases: a record is `related` exactly when it
      comes after all the per-card records. */
  lemma EmittedOrder(b: Board, now: int, suggestedDate: string)
    ensures forall k :: 0 <= k < |Emitted(b, now, suggestedDate)| ==>
      (Emitted(b, now, suggestedDate)[k].kind == Related
       <==> k >= |BoardRecommendations(CardRule(now, suggestedDate), b.lists, |b.lists|)|)
  {
    var perCard := BoardRecommendations(CardRule(now, suggestedDate), b.lists, |b.lists|);
    var related := RelatedRecommendations(Flatten(b.lists));
    var emitted := Emitted(b, now, suggestedDate);
    forall k | 0 <= k < |emitted|
      ensures emitted[k].kind == Related <==> k >= |perCard|
    {
      if k < |perCard| {
        assert emitted[k] == perCard[k];
        PerCardRefersToBoard(b, now, suggestedDate, perCard[k]);
      } else {
        assert emitted[k] == related[k - |perCard|];
        RelatedKind(Flatten(b.lists));
      }
    }
  }

  /** Lists without cards give no per-card records. */
  lemma {:induction false} NoCardsNoListRecommendations(rule: (CardList, Card) -> seq<Recommendation>,
                                                        lists: seq<CardList>, m: int)
    requires 0 <= m <= |lists|
    requires forall li :: 0 <= li < |lists| ==> lists[li].cards == []
    ensures BoardRecommendations(rule, lists, m) == []
  {
    if m > 0 {
      NoCardsNoListRecommendations(rule, lists, m - 1);
    }
  }

  /** A board without cards yields no recommendations. */
  lemma EmptyBoardNoRecommendations(b: Board, now: int, suggestedDate: string)
    requires forall li :: 0 <= li < |b.lists| ==> b.lists[li].cards == []
    ensures ByPriority(Emitted(b, now, suggestedDate)) == []
  {
    NoCardsNoListRecommendations(CardRule(now, suggestedDate), b.lists, |b.lists|);
    FlattenNoCards(b.lists);
  }
}

=== FILE: kanban.dfy ===
/** The board snapshot the recommendation engine reads, shaped after the card
    and list schemas, and the recommendation records it produces. */
module Kanban {

  datatype Option<T> = None | Some(value: T)

  /** Document identifiers, compared by plain equality. */
  type Id = string

  /** A card. A missing description is the empty string (the schema's
      default); the due date, when present, is a time in milliseconds. */
  datatype Card = Card(id: Id, title: string, description: string, dueDate: Option<int>)

  /** A list (a column of the board) with its cards in order. */
  datatype CardList = CardList(id: Id, title: string, cards: seq<Card>)

  /** A board: its lists in authored order. */
  datatype Board = Board(lists: seq<CardList>)

  datatype Kind = DueDate | Move | Attention | Overdue | Related

  datatype Priority = Critical | High | Medium | Low

  /** The sort key `priorityOrder`: critical 0, high 1, medium 2, low 3. */
  function Rank(p: Priority): (r: nat)
    ensures r <= 3
  {
    match p
    case Critical => 0
    case High => 1
    case Medium => 2
    case Low => 3
  }

  /** One recommendation record. `currentList` is present on `move` records,
      the three `related…` fields on `related` records. */
  datatype Recommendation = Recommendation(
    kind: Kind,
    cardId: Id,
    listId: Id,
    cardTitle: string,
    currentList: Option<string>,
    relatedCardId: Option<Id>,
    relatedListId: Option<Id>,
    relatedCardTitle: Option<string>,
    suggestion: string,
    reason: string,
    priority: Priority)

  /** The board holds a list with id `listId` that holds a card with id `cardId`. */
  predicate HasCardInList(b: Board, listId: Id, cardId: Id) {
    exists li, ci :: 0 <= li < |b.lists| && 0 <= ci < |b.lists[li].cards|
      && b.lists[li].id == listId && b.lists[li].cards[ci].id == cardId
  }
}

=== FILE: ordering.dfy ===
/** The final step of the engine: `recommendations.sort(...)` by priority
    rank. JavaScript's sort is stable, so records of equal priority keep the
    order in which the rules emitted them. */
module Ordering {
  import opened Kanban

  /** The records of priority `p`, in their original order. */
  function WithPriority(rs: seq<Recommendation>, p: Priority): (r: seq<Recommendation>)
    ensures |r| <= |rs|
    ensures forall k :: 0 <= k < |r| ==> r[k].priority == p
  {
    if |rs| == 0 then []
    else if rs[0].priority == p then [rs[0]] + WithPriority(rs[1..], p)
    else WithPriority(rs[1..], p)
  }

  /** Ranks never decrease along `rs`. */
  predicate Sorted(rs: seq<Recommendation>) {
    forall i, j :: 0 <= i < j < |rs| ==> Rank(rs[i].priority) <= Rank(rs[j].priority)
  }

  lemma SortedAppend(a: seq<Recommendation>, b: seq<Recommendation>, bound: nat)
    requires Sorted(a) && Sorted(b)
    requires forall k :: 0 <= k < |a| ==> Rank(a[k].priority) <= bound
    requires forall k :: 0 <= k < |b| ==> bound <= Rank(b[k].priority)
    ensures Sorted(a + b)
  {
  }

  /** The reference definition of a stable sort by rank: the critical
      records, then the high ones, the medium ones and the low ones, each
      group in its original order. */
  function ByPriority(rs: seq<Recommendation>): (r: seq<Recommendation>)
    ensures Sorted(r)
  {
    var c, h, m, l := WithPriority(rs, Critical), WithPriority(rs, High),
                      WithPriority(rs, Medium), WithPriority(rs, Low);
    SortedAppend(c, h, 0);
    SortedAppend(c + h, m, 1);
    SortedAppend(c + h + m, l, 2);
    c + h + m + l
  }

  /** `a` and `b` hold the same records of each priority in the same order. */
  predicate SameGroups(a: seq<Recommendation>, b: seq<Recommendation>) {
    forall p :: WithPriority(a, p) == WithPriority(b, p)
  }

  lemma {:induction false} WithPriorityAppend(a: seq<Recommendation>, b: seq<Recommendation>, p: Priority)
    ensures WithPriority(a + b, p) == WithPriority(a, p) + WithPriority(b, p)
  {
    if |a| == 0 {
      assert a + b == b;
    } else {
      assert (a + b)[0] == a[0];
      assert (a + b)[1..] == a[1..] + b;
      WithPriorityAppend(a[1..], b, p);
    }
  }

  lemma {:induction false} WithPriorityNone(rs: seq<Recommendation>, p: Priority)
    requires forall k :: 0 <= k < |rs| ==> rs[k].priority != p
    ensures WithPriority(rs, p) == []
  {
    if |rs| > 0 {
      WithPriorityNone(rs[1..], p);
    }
  }

  /** The records of priority `p` occur in WithPriority(rs, p) as often as
      in `rs`; the others do not occur. */
  lemma {:induction false} WithPriorityCount(rs: seq<Recommendation>, p: Priority, x: Recommendation)
    ensures multiset(WithPriority(rs, p))[x] == if x.priority == p then multiset(rs)[x] else 0
  {
    if |rs| > 0 {
      WithPriorityCount(rs[1..], p, x);
      assert rs == [rs[0]] + rs[1..];
    }
  }

  /** ByPriority keeps every record, as often as it occurs. */
  lemma ByPriorityPermutes(rs: seq<Recommendation>)
    ensures multiset(ByPriority(rs)) == multiset(rs)
  {
    forall x
      ensures multiset(ByPriority(rs))[x] == multiset(rs)[x]
    {
      WithPriorityCount(rs, Critical, x);
      WithPriorityCount(rs, High, x);
      WithPriorityCount(rs, Medium, x);
      WithPriorityCount(rs, Low, x);
    }
  }

  /** Filtering by `q` then by `p` keeps the group `p` when the two agree,
      and nothing otherwise. */
  lemma {:induction false} WithPriorityTwice(rs: seq<Recommendation>, q: Priority, p: Priority)
    ensures WithPriority(WithPriority(rs, q), p) == if q == p then WithPriority(rs, p) else []
  {
    if |rs| > 0 {
      WithPriorityTwice(rs[1..], q, p);
    }
  }

  /** Each group of ByPriority(rs) is the same group of rs. */
  lemma ByPriorityGroup(rs: seq<Recommendation>, p: Priority)
    ensures WithPriority(ByPriority(rs), p) == WithPriority(rs, p)
  {
    var c, h, m, l := WithPriority(rs, Critical), WithPriority(rs, High),
                      WithPriority(rs, Medium), WithPriority(rs, Low);
    WithPriorityAppend(c + h + m, l, p);
    WithPriorityAppend(c + h, m, p);
    WithPriorityAppend(c, h, p);
    WithPriorityTwice(rs, Critical, p);
    WithPriorityTwice(rs, High, p);
    WithPriorityTwice(rs, Medium, p);
    WithPriorityTwice(rs, Low, p);
  }

  /** ByPriority is stable: within each priority the records keep their order. */
  lemma ByPriorityStable(rs: seq<Recommendation>)
    ensures SameGroups(ByPriority(rs), rs)
  {
    forall p
      ensures WithPriority(ByPriority(rs), p) == WithPriority(rs, p)
    {
      ByPriorityGroup(rs, p);
    }
  }

  /** Putting a record in front of a stably sorted sequence whose ranks are
      all at least its own keeps it stably sorted. */
  lemma PrependSmallest(x: Recommendation, rest: seq<Recommendation>)
    requires ByPriority(rest) == rest
    requires forall k :: 0 <= k < |rest| ==> Rank(x.priority) <= Rank(rest[k].priority)
    ensures ByPriority([x] + rest) == [x] + rest
  {
    var t := [x] + rest;
    var c, h, m, l := WithPriority(rest, Critical), WithPriority(rest, High),
                      WithPriority(rest, Medium), WithPriority(rest, Low);
    assert t[0] == x && t[1..] == rest;
    var c', h', m', l' := WithPriority(t, Critical), WithPriority(t, High),
                          WithPriority(t, Medium), WithPriority(t, Low);
    assert rest == c + h + m + l;
    match x.priority
    case Critical =>
      assert c' == [x] + c && h' == h && m' == m && l' == l;
      assert c' + h' + m' + l' == [x] + (c + h + m + l);
    case High =>
      WithPriorityNone(rest, Critical);
      assert c' == [] && h' == [x] + h && m' == m && l' == l;
      assert c' + h' + m' + l' == [x] + (c + h + m + l);
    case Medium =>
      WithPriorityNone(rest, Critical);
      WithPriorityNone(rest, High);
      assert c' == [] && h' == [] && m' == [x] + m && l' == l;
      assert c' + h' + m' + l' == [x] + (c + h + m + l);
    case Low =>
      WithPriorityNone(rest, Critical);
      WithPriorityNone(rest, High);
      WithPriorityNone(rest, Medium);
      assert c' == [] && h' == [] && m' == [] && l' == [x] + l;
      assert c' + h' + m' + l' == [x] + (c + h + m + l);
  }

  /** A sequence already in rank order is its own stable sort. */
  lemma {:induction false} SortedIsByPriority(t: seq<Recommendation>)
    requires Sorted(t)
    ensures ByPriority(t) == t
  {
    if |t| > 0 {
      var x, rest := t[0], t[1..];
      assert Sorted(rest) by {
        forall i, j | 0 <= i < j < |rest|
          ensures Rank(rest[i].priority) <= Rank(rest[j].priority)
        {
          assert rest[i] == t[i + 1] && rest[j] == t[j + 1];
        }
      }
      SortedIsByPriority(rest);
      forall k | 0 <= k < |rest|
        ensures Rank(x.priority) <= Rank(rest[k].priority)
      {
        assert t[k + 1] == rest[k];
      }
      PrependSmallest(x, rest);
      assert t == [x] + rest;
    }
  }

  /** A stable sort by rank is unique: any rank-ordered sequence with the
      same records of each priority, in the same order, is ByPriority. */
  lemma SortedUnique(t: seq<Recommendation>, s: seq<Recommendation>)
    requires Sorted(t) && SameGroups(t, s)
    ensures t == ByPriority(s)
  {
    SortedIsByPriority(t);
    assert WithPriority(t, Critical) == WithPriority(s, Critical);
    assert WithPriority(t, High) == WithPriority(s, High);
    assert WithPriority(t, Medium) == WithPriority(s, Medium);
    assert WithPriority(t, Low) == WithPriority(s, Low);
  }

  lemma SameGroupsTrans(a: seq<Recommendation>, b: seq<Recommendation>, c: seq<Recommendation>)
    requires SameGroups(a, b) && SameGroups(b, c)
    ensures SameGroups(a, c)
  {
  }

  /** Exchanging two neighbours of different priority keeps every group. */
  lemma SwapKeepsGroups(s: seq<Recommendation>, j: int)
    requires 0 < j < |s| && s[j - 1].priority != s[j].priority
    ensures SameGroups(s[j - 1 := s[j]][j := s[j - 1]], s)
  {
    var t := s[j - 1 := s[j]][j := s[j - 1]];
    var front, back := s[..j - 1], s[j + 1..];
    var x, y := s[j - 1], s[j];
    assert s == front + [x, y] + back;
    assert t == front + [y, x] + back;
    forall p
      ensures WithPriority(t, p) == WithPriority(s, p)
    {
      WithPriorityAppend(front + [x, y], back, p);
      WithPriorityAppend(front, [x, y], p);
      WithPriorityAppend(front + [y, x], back, p);
      WithPriorityAppend(front, [y, x], p);
      WithPriorityAppend([x], [y], p);
      WithPriorityAppend([y], [x], p);
      assert [x] + [y] == [x, y];
      assert [y] + [x] == [y, x];
    }
  }

  /** Exchanges the neighbours at j - 1 and j. */
  method SwapDown(a: array<Recommendation>, j: int)
    requires 0 < j < a.Length && a[j - 1].priority != a[j].priority
    modifies a
    ensures a[..] == old(a[..])[j - 1 := old(a[j])][j := old(a[j - 1])]
    ensures SameGroups(a[..], old(a[..]))
  {
    SwapKeepsGroups(a[..], j);
    a[j - 1], a[j] := a[j], a[j - 1];
  }

  /** One step of the insertion sort: the record at `i` moves left past
      every neighbour of higher rank, so the first i + 1 records end up in
      rank order. */
  method InsertAt(a: array<Recommendation>, i: int)
    requires 0 <= i < a.Length
    requires forall p, q :: 0 <= p < q < i ==> Rank(a[p].priority) <= Rank(a[q].priority)
    modifies a
    ensures forall p, q :: 0 <= p < q <= i ==> Rank(a[p].priority) <= Rank(a[q].priority)
    ensures SameGroups(a[..], old(a[..]))
    ensures a[i + 1..] == old(a[i + 1..])
  {
    var j := i;
    while j > 0 && Rank(a[j - 1].priority) > Rank(a[j].priority)
      invariant 0 <= j <= i
      invariant forall p, q :: 0 <= p < q <= i && p != j && q != j ==>
        Rank(a[p].priority) <= Rank(a[q].priority)
      invariant j < i ==> Rank(a[j].priority) < Rank(a[j + 1].priority)
      invariant SameGroups(a[..], old(a[..]))
      invariant a[i + 1..] == old(a[i + 1..])
    {
      ghost var before := a[..];
      SwapDown(a, j);
      SameGroupsTrans(a[..], before, old(a[..]));
      j := j - 1;
    }
  }

  /** `recommendations.sort((a, b) => rank(a) - rank(b))`, in place and
      stable, as an insertion sort that exchanges neighbours. */
  method SortByPriority(a: array<Recommendation>)
    modifies a
    ensures a[..] == ByPriority(old(a[..]))
  {
    var i := 0;
    while i < a.Length
      invariant 0 <= i <= a.Length
      invariant forall p, q :: 0 <= p < q < i ==> Rank(a[p].priority) <= Rank(a[q].priority)
      invariant SameGroups(a[..], old(a[..]))
    {
      ghost var before := a[..];
      InsertAt(a, i);
      SameGroupsTrans(a[..], before, old(a[..]));
      i := i + 1;
    }
    assert a[..] == a[..a.Length];
    SortedUnique(a[..], old(a[..]));
  }
}

=== FILE: related_cards.dfy ===
/** Rule 4 of the recommendation engine: cards on different lists with at
    least two common meaningful words (the first card's words that the second
    card has, repeats included) are reported as related. */
module RelatedCards {
  import opened Text
  import opened Kanban
  import CardRules

  const StopWords: seq<string> :=
    ["the", "a", "an", "and", "or", "but", "in", "on", "at", "to", "for",
     "of", "with", "by", "from", "this", "that", "these", "those"]

  /** The test `/^[a-z]+$/`: one or more lower-case ASCII letters and nothing else. */
  predicate IsLowerAlpha(w: string) {
    |w| > 0 && forall k :: 0 <= k < |w| ==> 'a' <= w[k] <= 'z'
  }

  /** A word worth comparing: at least four characters, not a stop word,
      letters only. */
  predicate IsMeaningful(w: string) {
    |w| >= 4 && w !in StopWords && IsLowerAlpha(w)
  }

  /** The meaningful words of `ws`, in order and with repetitions. */
  function KeepMeaningful(ws: seq<string>): (r: seq<string>)
    ensures |r| <= |ws|
  {
    if |ws| == 0 then []
    else if IsMeaningful(ws[0]) then [ws[0]] + KeepMeaningful(ws[1..])
    else KeepMeaningful(ws[1..])
  }

  /** A word is kept exactly when it is one of the input words and meaningful. */
  lemma {:induction false} KeepMeaningfulMembers(ws: seq<string>, w: string)
    ensures w in KeepMeaningful(ws) <==> w in ws && IsMeaningful(w)
  {
    if |ws| > 0 {
      KeepMeaningfulMembers(ws[1..], w);
      assert ws == [ws[0]] + ws[1..];
    }
  }

  /** Filtering distributes over concatenation, so the kept words stay in
      their input order. */
  lemma {:induction false} KeepMeaningfulAppend(a: seq<string>, b: seq<string>)
    ensures KeepMeaningful(a + b) == KeepMeaningful(a) + KeepMeaningful(b)
  {
    if |a| > 0 {
      assert (a + b)[1..] == a[1..] + b;
      KeepMeaningfulAppend(a[1..], b);
    } else {
      assert a + b == b;
    }
  }

  /** A meaningful word is kept as often as it occurs; any other word never. */
  lemma {:induction false} KeepMeaningfulCount(ws: seq<string>, w: string)
    ensures multiset(KeepMeaningful(ws))[w] == if IsMeaningful(w) then multiset(ws)[w] else 0
  {
    if |ws| > 0 {
      KeepMeaningfulCount(ws[1..], w);
      assert ws == [ws[0]] + ws[1..];
    }
  }

  /** The meaningful words of a card text: its whitespace-separated tokens
      that pass IsMeaningful. */
  function MeaningfulWords(text: string): seq<string> {
    KeepMeaningful(Split(text))
  }

  /** The meaningful words of a text are exactly its tokens that are at
      least four lower-case letters long and not stop words; none of them
      holds whitespace. */
  lemma MeaningfulWordsMembers(text: string, w: string)
    ensures w in MeaningfulWords(text) <==> w in Split(text) && IsMeaningful(w)
    ensures w in MeaningfulWords(text) ==> |w| >= 4 && IsLowerAlpha(w) && w !in StopWords && NoWhitespace(w)
  {
    KeepMeaningfulMembers(Split(text), w);
  }

  /** `words1.filter(w => words2.includes(w))`. */
  function CommonWords(words1: seq<string>, words2: seq<string>): (r: seq<string>)
    ensures |r| <= |words1|
  {
    if |words1| == 0 then []
    else if words1[0] in words2 then [words1[0]] + CommonWords(words1[1..], words2)
    else CommonWords(words1[1..], words2)
  }

  /** The common words are the words of `words1` that also occur in
      `words2`, each as often as it occurs in `words1`: duplicates in the
      first list are kept. */
  lemma {:induction false} CommonWordsCount(words1: seq<string>, words2: seq<string>, w: string)
    ensures multiset(CommonWords(words1, words2))[w] == if w in words2 then multiset(words1)[w] else 0
  {
    if |words1| > 0 {
      CommonWordsCount(words1[1..], words2, w);
      assert words1 == [words1[0]] + words1[1..];
    }
  }

  /** The common words keep the order of `words1`: filtering distributes
      over concatenation. */
  lemma {:induction false} CommonWordsAppend(a: seq<string>, b: seq<string>, words2: seq<string>)
    ensures CommonWords(a + b, words2) == CommonWords(a, words2) + CommonWords(b, words2)
  {
    if |a| > 0 {
      assert (a + b)[1..] == a[1..] + b;
      CommonWordsAppend(a[1..], b, words2);
    } else {
      assert a + b == b;
    }
  }

  /** A card of the flattened board, tagged with the id and title of its list. */
  datatype FlatCard = FlatCard(card: Card, listId: Id, listTitle: string)

  function Tagged(l: CardList): (r: seq<FlatCard>)
    ensures |r| == |l.cards|
  {
    seq(|l.cards|, k requires 0 <= k < |l.cards| => FlatCard(l.cards[k], l.id, l.title))
  }

  /** The number of cards on all the lists. */
  function CardCount(lists: seq<CardList>): nat {
    if |lists| == 0 then 0 else |lists[0].cards| + CardCount(lists[1..])
  }

  /** `lists.flatMap(...)`: every card, list by list in board order and card by
      card in list order. */
  function Flatten(lists: seq<CardList>): (r: seq<FlatCard>)
    ensures |r| == CardCount(lists)
  {
    if |lists| == 0 then [] else Tagged(lists[0]) + Flatten(lists[1..])
  }

  /** `f` is card `ci` of list `li`, tagged with that list. */
  predicate IsCardOf(lists: seq<CardList>, f: FlatCard, li: int, ci: int) {
    0 <= li < |lists| && 0 <= ci < |lists[li].cards|
    && f == FlatCard(lists[li].cards[ci], lists[li].id, lists[li].title)
  }

  /** Every flattened entry is a card of the board, tagged with its own list. */
  lemma {:induction false} FlattenOrigin(lists: seq<CardList>, k: int)
    requires 0 <= k < |Flatten(lists)|
    ensures exists li, ci :: IsCardOf(lists, Flatten(lists)[k], li, ci)
  {
    var head := Tagged(lists[0]);
    if k < |head| {
      assert IsCardOf(lists, Flatten(lists)[k], 0, k);
    } else {
      FlattenOrigin(lists[1..], k - |head|);
      var li, ci :| IsCardOf(lists[1..], Flatten(lists[1..])[k - |head|], li, ci);
      assert IsCardOf(lists, Flatten(lists)[k], li + 1, ci);
    }
  }

  /** Card `ci` of list `li` sits in the flattened board after the cards of
      the lists before `li`, tagged with its list. */
  lemma {:induction false} FlattenAt(lists: seq<CardList>, li: int, ci: int)
    requires 0 <= li < |lists| && 0 <= ci < |lists[li].cards|
    ensures CardCount(lists[..li]) + ci < |Flatten(lists)|
      && Flatten(lists)[CardCount(lists[..li]) + ci]
         == FlatCard(lists[li].cards[ci], lists[li].id, lists[li].title)
  {
    if li == 0 {
      assert CardCount(lists[..0]) == 0;
    } else {
      assert lists[..li][1..] == lists[1..][..li - 1];
      FlattenAt(lists[1..], li - 1, ci);
    }
  }

  /** Boards whose lists hold no cards flatten to nothing. */
  lemma {:induction false} FlattenNoCards(lists: seq<CardList>)
    requires forall li :: 0 <= li < |lists| ==> lists[li].cards == []
    ensures Flatten(lists) == []
  {
    if |lists| > 0 {
      FlattenNoCards(lists[1..]);
    }
  }

  /** The shared meaningful words of two cards, in the first card's order. */
  function SharedWords(a: FlatCard, b: FlatCard): seq<string> {
    CommonWords(MeaningfulWords(CardRules.CardText(a.card)),
                MeaningfulWords(CardRules.CardText(b.card)))
  }

  /** `commonWords.slice(0, 3)`. */
  function FirstThree(ws: seq<string>): (r: seq<string>)
    ensures |r| <= 3 && r <= ws
    ensures |ws| >= 3 ==> |r| == 3
    ensures |ws| < 3 ==> r == ws
  {
    if |ws| <= 3 then ws else ws[..3]
  }

  /** The `related` record for card `a` (the earlier one) and card `b`. */
  function RelatedRecord(a: FlatCard, b: FlatCard, common: seq<string>): Recommendation {
    Recommendation(Related, a.card.id, a.listId, a.card.title, None,
                   Some(b.card.id), Some(b.listId), Some(b.card.title),
                   "These cards may be related",
                   "Common themes: " + Join(FirstThree(common), ", "), Low)
  }

  /** The record, if any, for the pair of flattened positions i < j. */
  function PairRecommendation(cards: seq<FlatCard>, i: int, j: int): (r: seq<Recommendation>)
    requires 0 <= i < j < |cards|
    ensures |r| <= 1
    ensures |r| == 1 <==>
      cards[i].listId != cards[j].listId && |SharedWords(cards[i], cards[j])| >= 2
    ensures forall k :: 0 <= k < |r| ==>
      r[k].kind == Related && r[k].priority == Low
      && r[k].cardId == cards[i].card.id && r[k].listId == cards[i].listId
      && r[k].cardTitle == cards[i].card.title && r[k].currentList.None?
      && r[k].relatedCardId == Some(cards[j].card.id)
      && r[k].relatedListId == Some(cards[j].listId)
      && r[k].relatedCardTitle == Some(cards[j].card.title)
      && r[k].suggestion == "These cards may be related"
      && r[k].reason == "Common themes: " + Join(FirstThree(SharedWords(cards[i], cards[j])), ", ")
  {
    if cards[i].listId == cards[j].listId then []
    else
      var common := SharedWords(cards[i], cards[j]);
      if |common| >= 2 then [RelatedRecord(cards[i], cards[j], common)] else []
  }

  /** The pair records as a table over all positions: empty outside i < j. */
  function PairTable(cards: seq<FlatCard>): (int, int) -> seq<Recommendation> {
    (i, j) => if 0 <= i < j < |cards| then PairRecommendation(cards, i, j) else []
  }

  /** The records of the pairs (i, j') with i < j' < j, in order of j'. */
  function Row(pair: (int, int) -> seq<Recommendation>, i: int, j: int): seq<Recommendation>
    requires i < j
    decreases j - i
  {
    if j == i + 1 then [] else Row(pair, i, j - 1) + pair(i, j - 1)
  }

  /** The records of all pairs i' < j' < n whose earlier position i' is below i,
      row by row. */
  function Rows(pair: (int, int) -> seq<Recommendation>, n: int, i: int): seq<Recommendation>
    requires 0 <= i <= n
  {
    if i == 0 then [] else Rows(pair, n, i - 1) + Row(pair, i - 1, n)
  }

  /** One more column appends the record of pair (i, j). */
  lemma RowStep(pair: (int, int) -> seq<Recommendation>, i: int, j: int)
    requires i < j
    ensures Row(pair, i, j + 1) == Row(pair, i, j) + pair(i, j)
  {
  }

  /** One more row appends all its pairs. */
  lemma RowsStep(pair: (int, int) -> seq<Recommendation>, n: int, i: int)
    requires 0 <= i < n
    ensures Rows(pair, n, i + 1) == Rows(pair, n, i) + Row(pair, i, n)
  {
  }

  /** Rule 4 over the whole flattened board. */
  function RelatedRecommendations(cards: seq<FlatCard>): seq<Recommendation> {
    Rows(PairTable(cards), |cards|, |cards|)
  }

  lemma {:induction false} RowMembers(pair: (int, int) -> seq<Recommendation>, i: int, j: int,
                                      r: Recommendation)
    requires i < j
    ensures r in Row(pair, i, j) <==> exists j' :: i < j' < j && r in pair(i, j')
    decreases j - i
  {
    if j > i + 1 {
      RowMembers(pair, i, j - 1, r);
      if exists j' :: i < j' < j && r in pair(i, j') {
        var j' :| i < j' < j && r in pair(i, j');
        assert j' < j - 1 ==> r in Row(pair, i, j - 1);
      }
    }
  }

  /** A record of the first i rows comes from a pair i' < j with i' < i. */
  lemma {:induction false} RowsSource(pair: (int, int) -> seq<Recommendation>, n: int, i: int,
                                      r: Recommendation)
    requires 0 <= i <= n && r in Rows(pair, n, i)
    ensures exists i', j :: 0 <= i' < i && i' < j < n && r in pair(i', j)
  {
    var prev, row := Rows(pair, n, i - 1), Row(pair, i - 1, n);
    assert Rows(pair, n, i) == prev + row;
    if r in row {
      RowMembers(pair, i - 1, n, r);
      var j :| i - 1 < j < n && r in pair(i - 1, j);
      assert 0 <= i - 1 < i && i - 1 < j < n && r in pair(i - 1, j);
    } else {
      RowsSource(pair, n, i - 1, r);
    }
  }

  /** A record of a pair i' < j with i' < i is among the first i rows. */
  lemma {:induction false} RowsInclude(pair: (int, int) -> seq<Recommendation>, n: int, i: int,
                                       i': int, j: int, r: Recommendation)
    requires 0 <= i' < i <= n && i' < j < n && r in pair(i', j)
    ensures r in Rows(pair, n, i)
  {
    var prev, row := Rows(pair, n, i - 1), Row(pair, i - 1, n);
    assert Rows(pair, n, i) == prev + row;
    if i' < i - 1 {
      RowsInclude(pair, n, i - 1, i', j, r);
      assert r in prev;
    } else {
      RowMembers(pair, i - 1, n, r);
      assert r in row;
    }
  }

  lemma RowsMembers(pair: (int, int) -> seq<Recommendation>, n: int, i: int, r: Recommendation)
    requires 0 <= i <= n
    ensures r in Rows(pair, n, i) <==> exists i', j :: 0 <= i' < i && i' < j < n && r in pair(i', j)
  {
    if r in Rows(pair, n, i) {
      RowsSource(pair, n, i, r);
    }
    if exists i', j :: 0 <= i' < i && i' < j < n && r in pair(i', j) {
      var i', j :| 0 <= i' < i && i' < j < n && r in pair(i', j);
      RowsInclude(pair, n, i, i', j, r);
    }
  }

  /** `r` is a `related` record for the positions i < j of the flattened
      board: cards on different lists, the earlier one named first. */
  predicate RelatesPair(cards: seq<FlatCard>, r: Recommendation, i: int, j: int) {
    0 <= i < j < |cards| && cards[i].listId != cards[j].listId
    && r.kind == Related && r.priority == Low
    && r.cardId == cards[i].card.id && r.listId == cards[i].listId
    && r.relatedCardId == Some(cards[j].card.id) && r.relatedListId == Some(cards[j].listId)
  }

  /** Every record of Rule 4 relates some pair i < j of cards on different lists. */
  lemma RelatedSource(cards: seq<FlatCard>, r: Recommendation)
    requires r in RelatedRecommendations(cards)
    ensures exists i, j :: RelatesPair(cards, r, i, j)
  {
    var table := PairTable(cards);
    RowsMembers(table, |cards|, |cards|, r);
    var i, j :| 0 <= i < |cards| && i < j < |cards| && r in table(i, j);
    var pair := PairRecommendation(cards, i, j);
    assert r in pair;
    assert RelatesPair(cards, r, i, j);
  }

  /** Every pair i < j contributes its record, if it has one, to Rule 4. */
  lemma PairIncluded(cards: seq<FlatCard>, i: int, j: int)
    requires 0 <= i < j < |cards|
    ensures forall r :: r in PairRecommendation(cards, i, j) ==> r in RelatedRecommendations(cards)
  {
    var table := PairTable(cards);
    forall r | r in PairRecommendation(cards, i, j)
      ensures r in RelatedRecommendations(cards)
    {
      assert r in table(i, j);
      RowsMembers(table, |cards|, |cards|, r);
    }
  }

  /** Every record of Rule 4 is a `related` record. */
  lemma RelatedKind(cards: seq<FlatCard>)
    ensures forall r :: r in RelatedRecommendations(cards) ==> r.kind == Related
  {
    forall r | r in RelatedRecommendations(cards)
      ensures r.kind == Related
    {
      RelatedSource(cards, r);
    }
  }

  /** Duplicates are kept: a word repeated in the first text counts as often
      as it is repeated there, provided the second text has it once. */
  lemma CommonWordsKeepsRepeats()
    ensures CommonWords(MeaningfulWords("database database"), MeaningfulWords("database"))
            == ["database", "database"]
  {
    var w := "database";
    assert IsMeaningful(w);
    assert Join([w, w], " ") == "database database";
    SplitJoin([w, w]);
    assert Join([w], " ") == w;
    SplitJoin([w]);
  }
}

=== FILE: text.dfy ===
/** String primitives the recommendation engine relies on, restricted to ASCII:
    `toLowerCase`, `replace(/\s+/g, '')`, `includes`, `split(/\s+/)`, `join`
    and the decimal rendering of a day count inside a template literal. */
module Text {

  /** The ASCII characters matched by the `\s` class: space, tab, line feed,
      vertical tab, form feed and carriage return. */
  predicate IsWhitespace(c: char) {
    c == ' ' || c == '\t' || c == '\n' || c == '\r' || c == '\U{0B}' || c == '\U{0C}'
  }

  predicate NoWhitespace(s: string) {
    forall k :: 0 <= k < |s| ==> !IsWhitespace(s[k])
  }

  predicate AllWhitespace(s: string) {
    forall k :: 0 <= k < |s| ==> IsWhitespace(s[k])
  }

  predicate IsUpper(c: char) {
    'A' <= c <= 'Z'
  }

  function LowerChar(c: char): char {
    if IsUpper(c) then (c as int + 32) as char else c
  }

  /** `toLowerCase` on ASCII text: every upper-case letter becomes its
      lower-case partner, every other character is kept. */
  function Lower(s: string): (r: string)
    ensures |r| == |s|
    ensures forall k :: 0 <= k < |r| ==> !IsUpper(r[k])
    ensures forall k :: 0 <= k < |s| ==>
      (IsUpper(s[k]) ==> r[k] as int == s[k] as int + 32) && (!IsUpper(s[k]) ==> r[k] == s[k])
  {
    seq(|s|, k requires 0 <= k < |s| => LowerChar(s[k]))
  }

  /** `replace(/\s+/g, '')`: the string with every whitespace character removed. */
  function RemoveWhitespace(s: string): (r: string)
    ensures |r| <= |s|
  {
    if s == [] then []
    else (if IsWhitespace(s[0]) then [] else [s[0]]) + RemoveWhitespace(s[1..])
  }

  lemma {:induction false} RemoveWhitespaceAppend(a: string, b: string)
    ensures RemoveWhitespace(a + b) == RemoveWhitespace(a) + RemoveWhitespace(b)
  {
    if a == [] {
      assert a + b == b;
    } else {
      assert (a + b)[0] == a[0];
      assert (a + b)[1..] == a[1..] + b;
      RemoveWhitespaceAppend(a[1..], b);
    }
  }

  /** The result holds no whitespace. */
  lemma {:induction false} RemoveWhitespaceRemovesAll(s: string)
    ensures NoWhitespace(RemoveWhitespace(s))
  {
    if s != [] {
      RemoveWhitespaceRemovesAll(s[1..]);
    }
  }

  lemma {:induction false} RemoveWhitespaceOfWord(s: string)
    requires NoWhitespace(s)
    ensures RemoveWhitespace(s) == s
  {
    if s != [] {
      RemoveWhitespaceOfWord(s[1..]);
    }
  }

  lemma {:induction false} RemoveWhitespaceOfGap(s: string)
    requires AllWhitespace(s)
    ensures RemoveWhitespace(s) == []
  {
    if s != [] {
      RemoveWhitespaceOfGap(s[1..]);
    }
  }

  /** `s.includes(sub)`: `sub` occurs in `s` at some position (the empty
      string occurs everywhere). */
  predicate Contains(s: string, sub: string)
    decreases |s|
  {
    if |s| < |sub| then false
    else if s[..|sub|] == sub then true
    else Contains(s[1..], sub)
  }

  /** `sub` occurs in `s` starting at index `i`. */
  predicate OccursAt(s: string, sub: string, i: int) {
    0 <= i <= |s| - |sub| && s[i..i + |sub|] == sub
  }

  /** Contains is exactly "there is an index at which `sub` starts". */
  lemma {:induction false} ContainsAt(s: string, sub: string)
    ensures Contains(s, sub) <==> exists i :: OccursAt(s, sub, i)
    decreases |s|
  {
    if |s| < |sub| {
    } else if s[..|sub|] == sub {
      assert OccursAt(s, sub, 0);
    } else {
      ContainsAt(s[1..], sub);
      if Contains(s[1..], sub) {
        var i :| OccursAt(s[1..], sub, i);
        assert s[i + 1..i + 1 + |sub|] == s[1..][i..i + |sub|];
        assert OccursAt(s, sub, i + 1);
      }
      if exists i :: OccursAt(s, sub, i) {
        var i :| OccursAt(s, sub, i);
        assert i != 0;
        assert s[1..][i - 1..i - 1 + |sub|] == s[i..i + |sub|];
        assert OccursAt(s[1..], sub, i - 1);
      }
    }
  }

  /** A text contains each of its suffixes. */
  lemma ContainsSuffix(a: string, b: string)
    ensures Contains(a + b, b)
  {
    assert (a + b)[|a|..|a| + |b|] == b;
    assert OccursAt(a + b, b, |a|);
    ContainsAt(a + b, b);
  }

  /** `words.some(word => s.includes(word))`. */
  predicate ContainsAny(s: string, words: seq<string>) {
    exists k :: 0 <= k < |words| && Contains(s, words[k])
  }

  /** The end of the run of non-whitespace characters starting at `i`. */
  function WordEnd(s: string, i: nat): (r: nat)
    requires i <= |s|
    ensures i <= r <= |s|
    ensures NoWhitespace(s[i..r])
    ensures r < |s| ==> IsWhitespace(s[r])
    decreases |s| - i
  {
    if i == |s| || IsWhitespace(s[i]) then i else WordEnd(s, i + 1)
  }

  /** The end of the run of whitespace characters starting at `i`. */
  function GapEnd(s: string, i: nat): (r: nat)
    requires i <= |s|
    ensures i <= r <= |s|
    ensures AllWhitespace(s[i..r])
    ensures r < |s| ==> !IsWhitespace(s[r])
    decreases |s| - i
  {
    if i == |s| || !IsWhitespace(s[i]) then i else GapEnd(s, i + 1)
  }

  /** `s.split(/\s+/)`: the pieces between maximal whitespace runs. As in
      JavaScript, a leading or trailing run yields an empty first or last
      piece, and the empty string splits into one empty piece. */
  function Split(s: string): (r: seq<string>)
    ensures |r| >= 1
    decreases |s|
  {
    var i := WordEnd(s, 0);
    if i == |s| then [s]
    else
      var j := GapEnd(s, i);
      assert j > i;
      [s[..i]] + Split(s[j..])
  }

  /** No piece of a split holds whitespace. */
  lemma {:induction false} SplitPiecesAreWords(s: string)
    ensures forall k :: 0 <= k < |Split(s)| ==> NoWhitespace(Split(s)[k])
    decreases |s|
  {
    var i := WordEnd(s, 0);
    if i < |s| {
      SplitPiecesAreWords(s[GapEnd(s, i)..]);
    }
  }

  function Concat(ws: seq<string>): string {
    if ws == [] then [] else ws[0] + Concat(ws[1..])
  }

  /** Removing whitespace from a word, a gap and a rest keeps the word and
      the rest's non-whitespace. */
  lemma RemoveWhitespaceOfWordGap(word: string, gap: string, rest: string)
    requires NoWhitespace(word) && AllWhitespace(gap)
    ensures RemoveWhitespace(word + gap + rest) == word + RemoveWhitespace(rest)
  {
    assert RemoveWhitespace(word + gap) == word by {
      RemoveWhitespaceAppend(word, gap);
      RemoveWhitespaceOfWord(word);
      RemoveWhitespaceOfGap(gap);
    }
    RemoveWhitespaceAppend(word + gap, rest);
  }

  /** Splitting loses exactly the whitespace: gluing the pieces back
      together gives the input with its whitespace removed. */
  lemma {:induction false} SplitLosesOnlyWhitespace(s: string)
    ensures Concat(Split(s)) == RemoveWhitespace(s)
    decreases |s|
  {
    var i := WordEnd(s, 0);
    assert s[0..i] == s[..i];
    if i == |s| {
      RemoveWhitespaceOfWord(s);
      assert Concat(Split(s)) == s + Concat([]);
    } else {
      var j := GapEnd(s, i);
      var word, rest := s[..i], s[j..];
      assert s == word + s[i..j] + rest;
      RemoveWhitespaceOfWordGap(word, s[i..j], rest);
      SplitLosesOnlyWhitespace(rest);
      assert Split(s) == [word] + Split(rest);
      assert ([word] + Split(rest))[1..] == Split(rest);
    }
  }

  /** `ws.join(sep)`. */
  function Join(ws: seq<string>, sep: string): (r: string)
  {
    if |ws| == 0 then ""
    else if |ws| == 1 then ws[0]
    else ws[0] + sep + Join(ws[1..], sep)
  }

  /** Joining never loses a character of a piece: the joined length is the
      pieces' lengths plus one separator between each two. */
  lemma {:induction false} JoinLength(ws: seq<string>, sep: string)
    requires |ws| >= 1
    ensures |Join(ws, sep)| == |Concat(ws)| + (|ws| - 1) * |sep|
  {
    if |ws| == 1 {
      assert Concat(ws) == ws[0] + Concat([]);
    } else {
      JoinLength(ws[1..], sep);
    }
  }

  /** A run that ends at `e` is the run `WordEnd` finds. */
  lemma WordEndAt(s: string, i: nat, e: nat)
    requires i <= e <= |s|
    requires NoWhitespace(s[i..e]) && (e < |s| ==> IsWhitespace(s[e]))
    ensures WordEnd(s, i) == e
  {
  }

  /** A gap that ends at `e` is the gap `GapEnd` finds. */
  lemma GapEndAt(s: string, i: nat, e: nat)
    requires i <= e <= |s|
    requires AllWhitespace(s[i..e]) && (e < |s| ==> !IsWhitespace(s[e]))
    ensures GapEnd(s, i) == e
  {
  }

  /** A text without whitespace splits into itself alone. */
  lemma SplitWord(w: string)
    requires NoWhitespace(w)
    ensures Split(w) == [w]
  {
    assert w[0..|w|] == w;
    WordEndAt(w, 0, |w|);
  }

  /** A leading word (possibly empty), then a maximal whitespace run, then
      the rest: the word is the first piece and the rest is split on. */
  lemma SplitWordGap(w: string, g: string, rest: string)
    requires NoWhitespace(w) && |g| > 0 && AllWhitespace(g)
    requires rest == [] || !IsWhitespace(rest[0])
    ensures Split(w + g + rest) == [w] + Split(rest)
  {
    var s := w + g + rest;
    assert s[0..|w|] == w && s[|w|] == g[0];
    WordEndAt(s, 0, |w|);
    assert s[|w|..|w| + |g|] == g;
    assert |w| + |g| < |s| ==> s[|w| + |g|] == rest[0];
    GapEndAt(s, |w|, |w| + |g|);
    assert s[..|w|] == w && s[|w| + |g|..] == rest;
  }

  /** A word in the sense of `split`: non-empty, without whitespace. */
  predicate IsWord(w: string) {
    |w| > 0 && NoWhitespace(w)
  }

  /** A join starts with its first piece. */
  lemma JoinStart(ws: seq<string>, sep: string)
    requires |ws| >= 1
    ensures |ws[0]| <= |Join(ws, sep)| && Join(ws, sep)[..|ws[0]|] == ws[0]
  {
  }

  /** Splitting undoes joining with a space, when every piece is a word. */
  lemma {:induction false} SplitJoin(ws: seq<string>)
    requires |ws| >= 1
    requires forall k :: 0 <= k < |ws| ==> IsWord(ws[k])
    ensures Split(Join(ws, " ")) == ws
  {
    var s, w := Join(ws, " "), ws[0];
    if |ws| == 1 {
      assert s == w && s[0..|s|] == s;
      WordEndAt(s, 0, |s|);
    } else {
      var rest := Join(ws[1..], " ");
      assert s == w + " " + rest;
      assert s[0..|w|] == w;
      WordEndAt(s, 0, |w|);
      JoinStart(ws[1..], " ");
      assert s[|w| + 1] == rest[0] == ws[1][0];
      assert s[|w|..|w| + 1] == " ";
      GapEndAt(s, |w|, |w| + 1);
      assert s[..|w|] == w && s[|w| + 1..] == rest;
      SplitJoin(ws[1..]);
      assert ws == [w] + ws[1..];
    }
  }

  predicate IsDigit(c: char) {
    '0' <= c <= '9'
  }

  function DigitChar(d: nat): (c: char)
    requires d < 10
    ensures IsDigit(c)
  {
    ('0' as int + d) as char
  }

  function DigitValue(c: char): nat
    requires IsDigit(c)
  {
    c as int - '0' as int
  }

  /** The template-literal rendering `${n}` of a non-negative integer: plain
      decimal digits with no leading zero. */
  function Decimal(n: nat): (r: string)
    ensures |r| >= 1
    ensures forall k :: 0 <= k < |r| ==> IsDigit(r[k])
    ensures |r| > 1 ==> r[0] != '0'
  {
    if n < 10 then [DigitChar(n)] else Decimal(n / 10) + [DigitChar(n % 10)]
  }

  /** Reading a string of decimal digits back as a number. */
  function DecimalValue(s: string): nat
    requires forall k :: 0 <= k < |s| ==> IsDigit(s[k])
  {
    if s == [] then 0 else DecimalValue(s[..|s| - 1]) * 10 + DigitValue(s[|s| - 1])
  }

  /** The rendering is faithful: reading it back gives the number. */
  lemma {:induction false} DecimalRoundTrip(n: nat)
    ensures DecimalValue(Decimal(n)) == n
  {
    var r := Decimal(n);
    if n >= 10 {
      DecimalRoundTrip(n / 10);
      assert r[..|r| - 1] == Decimal(n / 10);
    }
  }
}
